=== FILE: README.md ===
# Fishing-shop point of sale — a Dafny model

A model of the domain logic of a small point-of-sale and inventory app for a
fishing-gear shop. The app keeps a catalog of products, a cart on the cashier
screen, and a ledger of completed transactions. Everything else in the app is
rendering. The model covers:

- **Records** (`types.dfy`, module `Types`): `Product`, `CartItem` (a copy of a
  product plus a quantity), `Transaction`, and the `Category` and `UnitType`
  enumerations with their display strings.
- **Cart** (`pos.dfy`, module `Pos`): adding a product (merge by id or append),
  removing a line, the plus/minus buttons with their clamp at 1 and soft
  stock check, the total, the checkout guard, and the product grid's search.
- **Catalog and ledger** (`app.dfy`, module `App`): appending a product,
  replacing a product by id, and completing a transaction, which appends one
  ledger entry and lowers stock by the first matching line, with no floor.
- **Dashboard figures** (`dashboard.dfy`, module `Dashboard`): the low-stock
  list, the inventory value, total sales, and the restock panel that shows at
  most five rows and a "+N more" note.
- **Add-product form and search** (`inventory.dfy`, module `Inventory`): the
  reset form, its inputs, the submit guard, the product built from the form,
  the default `SKU-<clock>` value, and the name/SKU search.
- **The whole shop** (`shop.dfy`, module `Shop`): one state
  `(catalog, cart, ledger)` with one pure transition per user action, and
  end-to-end lemmas about checkout.
- **Shared pieces**: `seqs.dfy` (module `Seqs`) has the array combinators the
  handlers use: `find` (first match), `filter` (order-preserving) and a
  numeric `reduce` (`Sum`), with their lemmas. `text.dfy` (module `Text`) has
  ASCII lowercasing, substring search, and the decimal rendering of a clock
  reading. `wrappers.dfy` (module `Wrappers`) has `Option`.

Inputs from outside the program are parameters:

- the cashier's answer to the confirmation prompt (`confirmed: bool`);
- the clock reading that `Date.now()` gives (`now: nat`);
- today's date string (`today`);
- the random id of a new product (`newId`);
- the text an AI description request returns (a `SetDescription` form edit).

Numbers are unbounded integers. The sums (cart total, inventory value, total
sales) use `Seqs.Sum`, a right fold. `Seqs.SumIsReduce` proves that it equals
the left-to-right `reduce` that the code evaluates.

The form is modelled as it is after the modal has been opened. An untouched
text field is `undefined` in the source and `""` here. The code treats both
the same way, because both are falsy.

## Model

| member | source | states |
|---|---|---|
| Types.LabelsDistinct | types.ts:1-16 | Distinct units carry distinct strings, and so do distinct categories. The strings are the enum values (`Joran (Rod)`, `Kail (Hooks)`, `Pcs`, ...). |
| Seqs.Find | App.tsx:38 | `find` returns nothing exactly when no element matches. Otherwise it returns the first matching element, and it returns that element for every index that is the first match. |
| Seqs.Filter | components/POS.tsx:27 | `filter` keeps only elements that satisfy the predicate, and keeps every input element that satisfies it. Each kept value occurs in the result exactly as many times as in the input, and a rejected value does not occur at all. |
| Seqs.FilterIsSubsequence | components/Inventory.tsx:66-69 | The result of `filter` is a subsequence of its input, so order is preserved. |
| Seqs.Sum | components/POS.tsx:43 | A sum of non-negative terms is non-negative. |
| Seqs.SumIsReduce | components/POS.tsx:43 | The left-to-right `reduce` from an accumulator equals the accumulator plus `Sum`. So `Sum` gives the same value as the code's `reduce` from 0. |
| Seqs.SumAppend | components/Dashboard.tsx:28 | A sum over a concatenation is the sum of the two parts. |
| Text.Lower | components/Inventory.tsx:67 | Lowercasing keeps the length and leaves no ASCII capital. Each capital becomes its lowercase letter (its code plus 32), and every other character is unchanged. |
| Text.LowerIdempotent | components/Inventory.tsx:67 | Lowercasing twice is the same as lowercasing once. |
| Text.Contains | components/Inventory.tsx:67 | `includes` always finds the empty string and never finds a needle longer than the haystack. Text.ContainsIffOccurs gives the full characterisation. |
| Text.ContainsIffOccurs | components/Inventory.tsx:67 | `includes` holds exactly when the needle occurs at some index of the haystack. |
| Text.Decimal | components/Inventory.tsx:52 | A rendered clock reading is a non-empty string of digits with no leading zero, unless the reading is 0. |
| Text.DecimalRoundTrip | components/Inventory.tsx:52 | Reading a rendered number back gives the number, so distinct clock readings give distinct SKUs. |
| Pos.AddToCart | components/POS.tsx:14-23 | If the product is already in the cart, the length stays the same and each of its lines gains exactly 1 unit, while other lines are unchanged. Otherwise exactly one line is appended at the end, holding a copy of the product with quantity 1. |
| Pos.AddToCartKeepsLinesUnique | components/POS.tsx:14-23 | Adding a product keeps at most one line per product id. |
| Pos.AddTimesMakesOneLine | components/POS.tsx:14-23 | Adding a product that is not in the cart n ≥ 1 times appends one line with quantity n and leaves the rest of the cart unchanged. |
| Pos.AddTimesFromEmpty | components/POS.tsx:14-23 | Starting from an empty cart, n ≥ 1 adds of one product give exactly one line for it, with quantity n, and ids stay unique. |
| Pos.AddToCartAddsOneUnit | components/POS.tsx:16-22 | When ids are unique, one add raises the clicked product's unit count by 1 and leaves every other product's count unchanged. |
| Pos.AddToCartRaisesTotal | components/POS.tsx:43 | When ids are unique, one add raises the total by one unit price. That price is the one stored in the existing line, not the catalog's current price. |
| Pos.Total | components/POS.tsx:43 | The cart total equals the code's left-to-right `reduce` of sell price × quantity over the lines, starting from 0. |
| Pos.TotalBounds | components/POS.tsx:43 | An empty cart totals 0. With non-negative prices and quantities the total is non-negative. |
| Pos.RemoveFromCart | components/POS.tsx:26-28 | The result is an order-preserving subsequence of the cart. It has no line with the given id, and every other line appears as many times as in the cart. An unknown id leaves the cart unchanged. |
| Pos.RemoveFromCartQuantities | components/POS.tsx:27 | After a removal, the removed product has 0 units and every other product keeps its unit count. |
| Pos.RemoveKeepsLinesUnique | components/POS.tsx:26-28 | Removing a line keeps at most one line per product id. |
| Pos.ClampedQuantity | components/POS.tsx:33 | The new quantity is at least 1 and at least quantity + delta, and it is one of those two values. |
| Pos.UpdateQuantity | components/POS.tsx:30-41 | No line is added or removed, and no product data changes. Lines for the id get max(1, q + delta) when the first catalog product with that id has enough stock, or when no catalog product has that id. Otherwise they keep their quantity. Other lines are unchanged. |
| Pos.MinusAtOneIsNoOp | components/POS.tsx:33 | Pressing minus on lines that are already at quantity 1 leaves the cart unchanged. |
| Pos.HandleCheckout | components/POS.tsx:45-51 | A sale is submitted exactly when the cart is non-empty and the answer is yes. The sale carries the cart and its total, and the cart becomes empty. In every other case the cart is unchanged. |
| Pos.Browse | components/POS.tsx:53-55 | The product grid is an order-preserving subsequence of the catalog. A product appears exactly when it is in stock and its lowercased name contains the lowercased term, and it appears as many times as in the catalog. |
| App.AddProduct | App.tsx:18-20 | The catalog grows by exactly 1. Earlier entries are unchanged and the new product is last. |
| App.UpdateProduct | App.tsx:22-24 | Every entry with the matching id is replaced, and the length and all other entries are unchanged. An unknown id leaves the catalog unchanged. After the update, a lookup by that id finds the new product. |
| App.UpdateProductIdempotent | App.tsx:23 | Applying an update twice gives the same catalog as applying it once. |
| App.TransactionId | App.tsx:29 | A transaction id is `TX-` followed by digits with no leading zero (unless the reading is 0), and those digits read back as the clock reading. |
| App.TransactionIdInjective | App.tsx:29 | Distinct clock readings give distinct transaction ids. |
| App.RecordTransaction | App.tsx:28-34 | The ledger grows by exactly one transaction, which carries the `TX-` id of the clock reading and the given items, total and date. Earlier transactions are unchanged. |
| App.ReduceStock | App.tsx:37-43 | The catalog keeps its length and order, and only stock changes. A product lowers its stock by the quantity of its first matching line, with no floor. A product with no matching line is unchanged. |
| App.CompleteTransaction | App.tsx:26-43 | The ledger grows by one transaction with the `TX-` id of the clock reading, today's date, and the given lines and total. Earlier transactions are kept. The catalog keeps its length and only stock changes. Each product loses the quantity of its first matching line, and a product with no line is unchanged. |
| App.DeductedStep | App.tsx:37-43 | Suppose catalog ids are distinct, the first line names a catalog product, and no later line repeats its id. Then dropping the first line lowers the units taken from the catalog by exactly that line's quantity. |
| App.DeductedIsUnitsSold | App.tsx:37-43 | If catalog ids are unique, line ids are unique, and every line names a catalog product, then the units taken from all products add up to the units sold. |
| App.ReduceStockConservesUnits | App.tsx:37-43 | Under the same conditions, total stock on hand falls by exactly the units sold. |
| Dashboard.LowStock | components/Dashboard.tsx:26 | The low-stock list holds exactly the products with stock ≤ minStockAlert, in catalog order. Each low product appears as many times as in the catalog, so the list's length is the number of low entries (Dashboard.tsx:73 and the "+N more" note). |
| Dashboard.LowStockAppend | components/Dashboard.tsx:26 | Appending a product adds it to the end of the low-stock list exactly when it is low. |
| Dashboard.InventoryValue | components/Dashboard.tsx:27 | The value of stock on hand equals the code's left-to-right `reduce` of stock × buying price, starting from 0. |
| Dashboard.InventoryValueAppend | components/Dashboard.tsx:27 | An empty catalog is worth 0. Appending a product adds its stock × buying price. |
| Dashboard.TotalSales | components/Dashboard.tsx:28 | Total sales equal the code's left-to-right `reduce` of transaction totals, starting from 0. |
| Dashboard.TotalSalesAppend | components/Dashboard.tsx:28 | An empty ledger has total sales 0. Appending a transaction raises total sales by exactly its total. |
| Dashboard.Restock | components/Dashboard.tsx:130-146 | The "all safe" message appears exactly when the list is empty. The table shows the first min(5, count) products. The "+N more" note appears exactly when more than 5 are low, and N = count − 5. |
| Inventory.NewForm | components/Inventory.tsx:24-35 | A freshly opened form has an empty name, an empty SKU, sell price 0 and alert threshold 5. It cannot be saved as it is, nor once only a name is typed in, whatever the id and clock. |
| Inventory.ApplyEdit | components/Inventory.tsx:150-226 | Each input sets its own field to the typed value and changes no other field. No input changes minStockAlert. |
| Inventory.EditsKeepAlertThreshold | components/Inventory.tsx:150-226 | No form input changes minStockAlert. |
| Inventory.BuildProduct | components/Inventory.tsx:45-60 | No product is built exactly when the name is empty or the sell price is 0. Otherwise the product has the fresh id and the form's name, category, unit, stock, prices, alert threshold and description. Its SKU is the form's SKU when that is non-empty, and otherwise the default SKU `SKU-<clock reading>`. |
| Inventory.DefaultSku | components/Inventory.tsx:52 | A default SKU is `SKU-` followed by digits with no leading zero (unless the reading is 0), and those digits read back as the clock reading. |
| Inventory.DefaultSkuInjective | components/Inventory.tsx:52 | Distinct clock readings give distinct default SKUs. |
| Inventory.HandleSubmit | components/Inventory.tsx:45-64 | A rejected form leaves the catalog unchanged. An accepted form appends exactly one product, the one built from the form with the fresh id, and earlier entries are unchanged. |
| Inventory.NewFormDefaults | components/Inventory.tsx:24-35 | A freshly opened form cannot be saved. Once a name and sell price are filled in, the product gets category Aksesoris, unit Pcs, stock 0, minStockAlert 5, buying price 0, an empty description, and a generated SKU. |
| Inventory.FormProductsAlertAtFive | components/Inventory.tsx:24-35 | Every product the form can add has minStockAlert 5. |
| Inventory.Search | components/Inventory.tsx:66-69 | The search result is an order-preserving subsequence of the catalog. A product is kept exactly when its lowercased name or SKU contains the lowercased term. Each kept entry appears as many times as in the catalog. |
| Inventory.SearchEmptyKeepsAll | components/Inventory.tsx:66-69 | An empty search term keeps every product. |
| Inventory.SearchIgnoresCase | components/Inventory.tsx:66-69 | Searching for a term gives the same result as searching for its lowercase form. |
| Shop.Checkout | components/POS.tsx:45-51 | With an empty cart or a "no" answer, nothing changes. Otherwise the ledger gains one transaction, with the `TX-` id of the clock reading, today's date, the cart and its total. Earlier entries are kept and the cart becomes empty. The catalog keeps its length and only stock changes. Each product lowers its stock by its first matching line, and products not in the cart are unchanged. |
| Shop.CheckoutRaisesSales | components/Dashboard.tsx:28 | Total sales rise by exactly the cart total when a checkout goes through, and do not change otherwise. |
| Shop.CheckoutConservesStock | App.tsx:37-43 | When ids are unique and every line names a catalog product, a completed checkout lowers stock on hand by exactly the units in the cart. |
| Shop.ClickKeepsConsistent | components/POS.tsx:72-75 | A click on a catalog product keeps the state consistent: one cart line per product id, and every line names a catalog product. |
| Shop.AdjustKeepsConsistent | components/POS.tsx:30-41 | The plus and minus buttons keep the state consistent. |
| Shop.RemoveKeepsConsistent | components/POS.tsx:26-28 | The bin button keeps the state consistent. |
| Shop.SaveFormKeepsConsistent | components/Inventory.tsx:45-64 | Saving the add-product form keeps the state consistent, because the catalog only grows. |
| Shop.CheckoutKeepsConsistent | components/POS.tsx:45-51 | A checkout keeps the state consistent. |
| Shop.CheckoutThreeReels | App.tsx:26-43 | A confirmed checkout of 3 units of a product from a catalog holding only that product records one transaction. The transaction has the clock's `TX-` id, today's date, total 3 × sell price, and the cart's line. The cart empties, and the product's stock drops by 3. |
| Shop.SeedScenario | constants.ts:4-15 | Starting from the seed reel (stock 5, sell price 10,500,000), three adds and a confirmed checkout record one sale of 31,500,000. They leave stock 2, which puts the reel on the low-stock list. |
| Shop.OversellScenario | App.tsx:40 | Adding a product has no stock check and checkout has no floor. So 3 units sold from a stock of 2 leave stock −1, and the sale still succeeds. |

## Behaviour worth knowing

- Adding a product does not reject a duplicate id, and updating a product does not reject an unknown id. An unknown id leaves the catalog unchanged.
- The plus and minus buttons add a delta to the current quantity. They do not set a new quantity. The stock check compares the clamped result with the stock of the first catalog product that has the id.
- Adding a product to the cart has no stock check. Only the plus/minus buttons check stock, and the product grid hides products whose stock is 0 or less.
- The category and unit enumerations carry the values the code uses (`Joran (Rod)`, `Kail (Hooks)`, `Pcs`, `Kg`, ...).
- The add-product form has no input for the alert threshold, so every product it adds has `minStockAlert` 5.

## Left out

- The AI text service (`services/geminiService.ts`) makes network calls. It is not modelled. The description it returns enters the model as an ordinary `SetDescription` form edit.
- The dashboard's insight fetch (`useEffect` with its `mounted` flag) is not modelled. It is asynchronous and tied to the component lifecycle.
- The hard-coded weekly chart data and all chart rendering are not modelled.
- `components/ErrorBoundary.tsx` is not part of this model. It holds React error plumbing and no domain logic.
- The side effects `window.confirm`, `alert` and view switching are not modelled. The confirm answer is a boolean parameter.
- Id and date generation (`Math.random`, `Date.now`, `toISOString`) is not modelled. Ids, the clock reading and today's date are parameters. The transaction id and the default SKU are built from the clock reading with the same `TX-`/`SKU-` prefixes.
- JavaScript `number` semantics are not modelled: no floating point, no NaN, and no `Number()` coercion of empty or odd input. Prices, stock and quantities are unbounded integers. A sell price that `Number()` would turn into NaN, and which the guard would reject, is not represented.
- `toLowerCase` is modelled for ASCII letters only. Unicode case mapping is not modelled.
- `toLocaleString` formatting of amounts is not modelled. It is display only.
- The edit button in the inventory table has no handler, so nothing in the UI calls `handleUpdateProduct`. The handler is modelled, but no edit flow is.
- The form state before the modal first opens (only category, unit and description set) is not modelled. That state cannot be submitted, because the form is shown only after `handleOpenModal` resets it.
- The seed data in `constants.ts` appears only as the reel used in `Shop.SeedScenario`, with its description left out.
- The cart is state of the POS screen and is discarded whenever the view changes: App.tsx:97 mounts the POS only while it is shown, and App.tsx:47 switches to the dashboard after every sale. `Shop.State` keeps the cart across catalog edits (`SaveForm`). This over-approximates what the source allows. No proved property depends on it.
- App.ReduceStockConservesUnits: the conservation law holds only when catalog ids are unique, cart line ids are unique, and every line names a catalog product. The last two hold in every reachable state: `Shop.Consistent` is kept by each transition, given that a click comes from a catalog tile. Catalog id uniqueness is not enforced by the source, because adding a product does not check for duplicate ids.

=== FILE: app.dfy ===
/** The shop-wide state held by the application shell (App.tsx): the product
    catalog and the transaction ledger, with the three handlers that change
    them. The clock (`Date.now()`) and today's date are parameters. */
module App {
  import opened Wrappers
  import opened Seqs
  import opened Types
  import Text

  /** The catalog and the ledger. */
  datatype Books = Books(products: seq<Product>, transactions: seq<Transaction>)

  /** `handleAddProduct`: the new product goes at the end; nothing else moves. */
  function AddProduct(catalog: seq<Product>, product: Product): (r: seq<Product>)
    ensures |r| == |catalog| + 1
    ensures r[..|catalog|] == catalog
    ensures r[|catalog|] == product
  {
    catalog + [product]
  }

  /** A catalog entry has id `id`. */
  predicate InCatalog(catalog: seq<Product>, id: string) {
    exists i :: 0 <= i < |catalog| && catalog[i].id == id
  }

  /** `handleUpdateProduct`: every entry with the updated product's id is
      replaced by it; length, order and all other entries are unchanged. */
  function UpdateProduct(catalog: seq<Product>, updated: Product): (r: seq<Product>)
    ensures |r| == |catalog|
    ensures forall i :: 0 <= i < |catalog| && catalog[i].id == updated.id ==> r[i] == updated
    ensures forall i :: 0 <= i < |catalog| && catalog[i].id != updated.id ==> r[i] == catalog[i]
    ensures !InCatalog(catalog, updated.id) ==> r == catalog
    ensures InCatalog(catalog, updated.id) ==> Find(r, ProductIs(updated.id)) == Some(updated)
  {
    var r := seq(|catalog|, i requires 0 <= i < |catalog| =>
      if catalog[i].id == updated.id then updated else catalog[i]);
    assert InCatalog(catalog, updated.id) ==> Find(r, ProductIs(updated.id)).Some? by {
      if InCatalog(catalog, updated.id) {
        var i :| 0 <= i < |catalog| && catalog[i].id == updated.id;
        assert ProductIs(updated.id)(r[i]);
      }
    }
    r
  }

  /** Applying the same update twice is applying it once. */
  lemma UpdateProductIdempotent(catalog: seq<Product>, updated: Product)
    ensures UpdateProduct(UpdateProduct(catalog, updated), updated) == UpdateProduct(catalog, updated)
  {
  }

  /** The transaction id `TX-<milliseconds>`. */
  function TransactionId(now: nat): (id: string)
    ensures |id| > 3 && id[..3] == "TX-"
    ensures Text.IsDigits(id[3..])
    ensures Text.DigitsValue(id[3..]) == now
    ensures id[3] == '0' ==> now == 0
  {
    var id := "TX-" + Text.Decimal(now);
    assert id[3..] == Text.Decimal(now);
    Text.DecimalRoundTrip(now);
    id
  }

  /** Distinct clock readings give distinct transaction ids. */
  lemma TransactionIdInjective(a: nat, b: nat)
    ensures a != b ==> TransactionId(a) != TransactionId(b)
  {
  }

  /** Step 1 of `handleTransactionComplete`: append one transaction holding
      exactly the submitted lines and total; earlier transactions are kept. */
  function RecordTransaction(ledger: seq<Transaction>, items: seq<CartItem>, total: int, now: nat, today: string)
    : (r: seq<Transaction>)
    ensures |r| == |ledger| + 1
    ensures r[..|ledger|] == ledger
    ensures r[|ledger|].items == items && r[|ledger|].total == total && r[|ledger|].date == today
    ensures r[|ledger|].id == TransactionId(now)
  {
    ledger + [Transaction(TransactionId(now), today, total, items)]
  }

  /** One product after a sale: its stock drops by the quantity of the first
      sold line with its id, if there is one. No floor is applied. */
  function Deduct(p: Product, items: seq<CartItem>): Product {
    match Find(items, LineIs(p.id))
    case Some(l) => p.(stock := p.stock - l.quantity)
    case None => p
  }

  /** Step 2 of `handleTransactionComplete`: every product sold loses the
      quantity of its first matching line; nothing but stock changes, and
      the result may be negative. */
  function ReduceStock(catalog: seq<Product>, items: seq<CartItem>): (r: seq<Product>)
    ensures |r| == |catalog|
    ensures forall i :: 0 <= i < |catalog| ==> r[i].(stock := catalog[i].stock) == catalog[i]
    ensures forall i, k :: 0 <= i < |catalog| && IsFirst(items, LineIs(catalog[i].id), k) ==>
      r[i].stock == catalog[i].stock - items[k].quantity
    ensures forall i :: 0 <= i < |catalog| && (forall k :: 0 <= k < |items| ==> items[k].product.id != catalog[i].id) ==>
      r[i] == catalog[i]
  {
    seq(|catalog|, i requires 0 <= i < |catalog| => Deduct(catalog[i], items))
  }

  /** `handleTransactionComplete`: the ledger gains one transaction with the
      clock's id, today's date and the given lines and total; the catalog
      keeps its length, each product loses the quantity of its first sold
      line, and nothing else changes. */
  function CompleteTransaction(books: Books, items: seq<CartItem>, total: int, now: nat, today: string): (r: Books)
    ensures |r.transactions| == |books.transactions| + 1
    ensures r.transactions[..|books.transactions|] == books.transactions
    ensures r.transactions[|books.transactions|] == Transaction(TransactionId(now), today, total, items)
    ensures |r.products| == |books.products|
    ensures forall i :: 0 <= i < |books.products| ==> r.products[i].(stock := books.products[i].stock) == books.products[i]
    ensures forall i, k :: 0 <= i < |books.products| && IsFirst(items, LineIs(books.products[i].id), k) ==>
      r.products[i].stock == books.products[i].stock - items[k].quantity
    ensures forall i :: 0 <= i < |books.products| && (forall k :: 0 <= k < |items| ==> items[k].product.id != books.products[i].id) ==>
      r.products[i] == books.products[i]
  {
    Books(ReduceStock(books.products, items), RecordTransaction(books.transactions, items, total, now, today))
  }

  function StockOf(p: Product): int {
    p.stock
  }

  /** Units on hand over the whole catalog. */
  function StockOnHand(catalog: seq<Product>): int {
    Sum(catalog, StockOf)
  }

  function Quantity(l: CartItem): int {
    l.quantity
  }

  /** Units sold by a set of lines. */
  function UnitsSold(items: seq<CartItem>): int {
    Sum(items, Quantity)
  }

  /** The units a sale takes from a product (the quantity of its first line). */
  function DeductedFrom(items: seq<CartItem>): Product -> int {
    (p: Product) => match Find(items, LineIs(p.id)) case Some(l) => l.quantity case None => 0
  }

  /** `q` units for the product with id `id`, nothing for the others. */
  function ProductHit(id: string, q: int): Product -> int {
    (p: Product) => if p.id == id then q else 0
  }

  /** What a sale takes from one product, split into its first line's share
      and the rest's, when no later line repeats the first line's id. */
  lemma DeductedPeel(items: seq<CartItem>, p: Product)
    requires |items| > 0
    requires forall k :: 1 <= k < |items| ==> items[k].product.id != items[0].product.id
    ensures DeductedFrom(items)(p) == DeductedFrom(items[1..])(p) + ProductHit(items[0].product.id, items[0].quantity)(p)
  {
    if p.id == items[0].product.id {
      assert forall k :: 0 <= k < |items[1..]| ==> !LineIs(p.id)(items[1..][k]);
    }
  }

  /** Peeling the first line off a sale: over a catalog that holds its
      product exactly once, the units taken drop by that line's quantity. */
  lemma DeductedStep(catalog: seq<Product>, items: seq<CartItem>)
    requires UniqueProducts(catalog)
    requires |items| > 0
    requires forall k :: 1 <= k < |items| ==> items[k].product.id != items[0].product.id
    requires InCatalog(catalog, items[0].product.id)
    ensures Sum(catalog, DeductedFrom(items)) == Sum(catalog, DeductedFrom(items[1..])) + items[0].quantity
  {
    var hit := ProductHit(items[0].product.id, items[0].quantity);
    forall i | 0 <= i < |catalog|
      ensures DeductedFrom(items)(catalog[i]) == DeductedFrom(items[1..])(catalog[i]) + hit(catalog[i])
    {
      DeductedPeel(items, catalog[i]);
    }
    SumPointwise(catalog, DeductedFrom(items), catalog, DeductedFrom(items[1..]), catalog, hit);
    var j :| 0 <= j < |catalog| && catalog[j].id == items[0].product.id;
    SumSingleHit(catalog, hit, j);
  }

  /** Over a catalog with distinct ids, a sale of lines with distinct ids that
      all name catalog products takes exactly the units sold. */
  lemma {:induction false} DeductedIsUnitsSold(catalog: seq<Product>, items: seq<CartItem>)
    requires UniqueProducts(catalog)
    requires UniqueLines(items)
    requires forall k :: 0 <= k < |items| ==> InCatalog(catalog, items[k].product.id)
    ensures Sum(catalog, DeductedFrom(items)) == UnitsSold(items)
  {
    if |items| == 0 {
      SumZero(catalog, DeductedFrom(items));
    } else {
      var rest := items[1..];
      assert forall k :: 0 <= k < |rest| ==> rest[k] == items[k + 1];
      DeductedIsUnitsSold(catalog, rest);
      DeductedStep(catalog, items);
    }
  }

  /** Stock is conserved by a sale: over a catalog with distinct ids, when
      every sold line (one per product) names a catalog product, the units on
      hand drop by exactly the units sold. */
  lemma ReduceStockConservesUnits(catalog: seq<Product>, items: seq<CartItem>)
    requires UniqueProducts(catalog)
    requires UniqueLines(items)
    requires forall k :: 0 <= k < |items| ==> InCatalog(catalog, items[k].product.id)
    ensures StockOnHand(ReduceStock(catalog, items)) == StockOnHand(catalog) - UnitsSold(items)
  {
    var r := ReduceStock(catalog, items);
    SumPointwise(catalog, StockOf, r, StockOf, catalog, DeductedFrom(items));
    DeductedIsUnitsSold(catalog, items);
  }
}

=== FILE: dashboard.dfy ===
/** The dashboard's derived, read-only figures (components/Dashboard.tsx):
    the low-stock list, the value of stock on hand, total sales, and the
    restock panel that shows at most five low-stock products. */
module Dashboard {
  import opened Wrappers
  import opened Seqs
  import opened Types

  /** A product is low on stock when `stock <= minStockAlert`. */
  predicate IsLowStock(p: Product) {
    p.stock <= p.minStockAlert
  }

  /** `lowStockProducts`: the low-stock products, in catalog order. */
  function LowStock(catalog: seq<Product>): (r: seq<Product>)
    ensures IsSubsequence(r, catalog)
    ensures forall i :: 0 <= i < |r| ==> r[i].stock <= r[i].minStockAlert
    ensures forall i :: 0 <= i < |catalog| ==> (catalog[i] in r <==> catalog[i].stock <= catalog[i].minStockAlert)
    ensures forall p :: multiset(r)[p] == if p.stock <= p.minStockAlert then multiset(catalog)[p] else 0
  {
    FilterIsSubsequence(catalog, IsLowStock);
    Filter(catalog, IsLowStock)
  }

  /** The low-stock list of a concatenation is the concatenation of the lists:
      adding a product appends it to the list exactly when it is low. */
  lemma LowStockAppend(catalog: seq<Product>, product: Product)
    ensures LowStock(catalog + [product]) == LowStock(catalog) + (if IsLowStock(product) then [product] else [])
  {
    FilterAppend(catalog, [product], IsLowStock);
  }

  /** What one product's stock is worth at its buying price. */
  function StockValue(p: Product): int {
    p.stock * p.priceBuy
  }

  /** `totalValue`: the sum of `stock * priceBuy` over the catalog. */
  function InventoryValue(catalog: seq<Product>): (r: int)
    ensures r == Reduce(catalog, StockValue, 0)
  {
    SumIsReduce(catalog, StockValue, 0);
    Sum(catalog, StockValue)
  }

  /** The empty catalog is worth 0; adding a product adds its stock value. */
  lemma InventoryValueAppend(catalog: seq<Product>, product: Product)
    ensures InventoryValue([]) == 0
    ensures InventoryValue(catalog + [product]) == InventoryValue(catalog) + product.stock * product.priceBuy
  {
    SumAppend(catalog, [product], StockValue);
  }

  function TransactionTotal(t: Transaction): int {
    t.total
  }

  /** `totalSales`: the sum of the recorded transaction totals. */
  function TotalSales(ledger: seq<Transaction>): (r: int)
    ensures r == Reduce(ledger, TransactionTotal, 0)
  {
    SumIsReduce(ledger, TransactionTotal, 0);
    Sum(ledger, TransactionTotal)
  }

  /** Recording a transaction raises total sales by exactly its total. */
  lemma TotalSalesAppend(ledger: seq<Transaction>, t: Transaction)
    ensures TotalSales([]) == 0
    ensures TotalSales(ledger + [t]) == TotalSales(ledger) + t.total
  {
    SumAppend(ledger, [t], TransactionTotal);
  }

  /** The number of low-stock rows the restock table shows. */
  const TableRows := 5

  /** The restock panel: the "all stock is safe" message, the table rows, and
      the "+ N more products" note. */
  datatype RestockPanel = RestockPanel(allSafe: bool, rows: seq<Product>, more: Option<nat>)

  /** The restock panel for a low-stock list: the message exactly when the list
      is empty, its first five entries as rows, and a note counting the rest
      exactly when more than five are low. */
  function Restock(low: seq<Product>): (r: RestockPanel)
    ensures r.allSafe <==> |low| == 0
    ensures |r.rows| <= TableRows && |r.rows| <= |low|
    ensures r.rows == low[..|r.rows|]
    ensures |r.rows| == |low| || |r.rows| == TableRows
    ensures r.more.Some? <==> |low| > TableRows
    ensures r.more.Some? ==> |r.rows| + r.more.value == |low|
  {
    var rows := if |low| == 0 then [] else low[..if |low| < TableRows then |low| else TableRows];
    var more := if |low| > TableRows then Some(|low| - TableRows) else None;
    RestockPanel(|low| == 0, rows, more)
  }
}

=== FILE: inventory.dfy ===
/** The stock-management screen (components/Inventory.tsx): the add-product
    form, its submit guard, the product it builds, and the name/SKU search.
    The random id and the clock reading used for a default SKU are
    parameters; so is the text an AI description request returns. */
module Inventory {
  import opened Wrappers
  import opened Seqs
  import opened Types
  import Text
  import App

  /** The form's state after the modal has been opened. An untouched text
      field is `undefined` in the source and `""` here: the code treats the
      two the same way (both are falsy). */
  datatype ProductForm = ProductForm(
    name: string,
    sku: string,
    category: Category,
    unit: UnitType,
    stock: int,
    priceBuy: int,
    priceSell: int,
    minStockAlert: int,
    description: string)

  /** `handleOpenModal`: the form every new product starts from. */
  function NewForm(): (f: ProductForm)
    ensures forall newId, now :: BuildProduct(f, newId, now).None?
    ensures f.name == "" && f.sku == "" && f.priceSell == 0
    ensures forall n, newId, now :: BuildProduct(ApplyEdit(f, SetName(n)), newId, now).None?
    ensures f.minStockAlert == 5
  {
    ProductForm("", "", Aksesoris, Pcs, 0, 0, 0, 5, "")
  }

  /** The inputs of the form. There is no input for `minStockAlert`. */
  datatype FormEdit =
    | SetName(name: string)
    | SetSku(sku: string)
    | SetCategory(category: Category)
    | SetUnit(unit: UnitType)
    | SetPriceBuy(priceBuy: int)
    | SetPriceSell(priceSell: int)
    | SetStock(stock: int)
    | SetDescription(description: string)

  /** One input's `onChange` (a `SetDescription` also stands for the AI
      description button, whose text is a parameter). */
  function ApplyEdit(form: ProductForm, edit: FormEdit): (r: ProductForm)
    ensures r.minStockAlert == form.minStockAlert
    ensures r.name != form.name ==> edit == SetName(r.name)
    ensures r.sku != form.sku ==> edit == SetSku(r.sku)
    ensures r.category != form.category ==> edit == SetCategory(r.category)
    ensures r.unit != form.unit ==> edit == SetUnit(r.unit)
    ensures r.priceBuy != form.priceBuy ==> edit == SetPriceBuy(r.priceBuy)
    ensures r.priceSell != form.priceSell ==> edit == SetPriceSell(r.priceSell)
    ensures r.stock != form.stock ==> edit == SetStock(r.stock)
    ensures r.description != form.description ==> edit == SetDescription(r.description)
    ensures edit.SetName? ==> r.name == edit.name
    ensures edit.SetSku? ==> r.sku == edit.sku
    ensures edit.SetCategory? ==> r.category == edit.category
    ensures edit.SetUnit? ==> r.unit == edit.unit
    ensures edit.SetPriceBuy? ==> r.priceBuy == edit.priceBuy
    ensures edit.SetPriceSell? ==> r.priceSell == edit.priceSell
    ensures edit.SetStock? ==> r.stock == edit.stock
    ensures edit.SetDescription? ==> r.description == edit.description
  {
    match edit
    case SetName(v) => form.(name := v)
    case SetSku(v) => form.(sku := v)
    case SetCategory(v) => form.(category := v)
    case SetUnit(v) => form.(unit := v)
    case SetPriceBuy(v) => form.(priceBuy := v)
    case SetPriceSell(v) => form.(priceSell := v)
    case SetStock(v) => form.(stock := v)
    case SetDescription(v) => form.(description := v)
  }

  /** A sequence of edits, first to last. */
  function ApplyEdits(form: ProductForm, edits: seq<FormEdit>): ProductForm
    decreases |edits|
  {
    if |edits| == 0 then form else ApplyEdits(ApplyEdit(form, edits[0]), edits[1..])
  }

  /** No edit reaches the alert threshold: whatever the user types, it keeps
      the value the form was opened with. */
  lemma {:induction false} EditsKeepAlertThreshold(form: ProductForm, edits: seq<FormEdit>)
    ensures ApplyEdits(form, edits).minStockAlert == form.minStockAlert
    decreases |edits|
  {
    if |edits| > 0 {
      EditsKeepAlertThreshold(ApplyEdit(form, edits[0]), edits[1..]);
    }
  }

  /** The SKU a product gets when the form's SKU is left empty. */
  function DefaultSku(now: nat): (sku: string)
    ensures |sku| > 4 && sku[..4] == "SKU-"
    ensures Text.IsDigits(sku[4..])
    ensures Text.DigitsValue(sku[4..]) == now
    ensures sku[4] == '0' ==> now == 0
  {
    var sku := "SKU-" + Text.Decimal(now);
    assert sku[4..] == Text.Decimal(now);
    Text.DecimalRoundTrip(now);
    sku
  }

  /** Distinct clock readings give distinct default SKUs. */
  lemma DefaultSkuInjective(a: nat, b: nat)
    ensures a != b ==> DefaultSku(a) != DefaultSku(b)
  {
  }

  /** `handleSubmit`: nothing when the name is empty or the sell price is 0;
      otherwise a product with the fresh id, the form's fields, and the form's
      SKU or, when that is empty, `SKU-` followed by the clock's digits. */
  function BuildProduct(form: ProductForm, newId: string, now: nat): (r: Option<Product>)
    ensures r.None? <==> form.name == "" || form.priceSell == 0
    ensures r.Some? ==>
      && r.value.id == newId
      && r.value.name == form.name
      && r.value.category == form.category
      && r.value.unit == form.unit
      && r.value.stock == form.stock
      && r.value.priceBuy == form.priceBuy
      && r.value.priceSell == form.priceSell
      && r.value.minStockAlert == form.minStockAlert
      && r.value.description == Some(form.description)
    ensures r.Some? && form.sku != "" ==> r.value.sku == form.sku
    ensures r.Some? && form.sku == "" ==> r.value.sku == DefaultSku(now)
  {
    if form.name == "" || form.priceSell == 0 then None
    else
      var sku := if form.sku != "" then form.sku else DefaultSku(now);
      Some(Product(newId, form.name, sku, form.category, form.stock, form.unit,
                   form.priceBuy, form.priceSell, Some(form.description), form.minStockAlert))
  }

  /** Submitting the form: the catalog gains the built product at its end, or
      is left as it is when the guard rejects the form. */
  function HandleSubmit(catalog: seq<Product>, form: ProductForm, newId: string, now: nat): (r: seq<Product>)
    ensures form.name == "" || form.priceSell == 0 ==> r == catalog
    ensures form.name != "" && form.priceSell != 0 ==>
      && |r| == |catalog| + 1
      && r[..|catalog|] == catalog
      && r[|catalog|].id == newId
      && r[|catalog|] == BuildProduct(form, newId, now).value
  {
    match BuildProduct(form, newId, now)
    case None => catalog
    case Some(p) => App.AddProduct(catalog, p)
  }

  /** A form opened and saved with only a name and a sell price typed in
      yields a product carrying the reset values: category Aksesoris, unit
      Pcs, stock 0, alert threshold 5, buy price 0, empty description. A
      form saved with no edits at all is rejected. */
  lemma NewFormDefaults(name: string, priceSell: int, newId: string, now: nat)
    requires name != "" && priceSell != 0
    ensures BuildProduct(NewForm(), newId, now).None?
    ensures BuildProduct(ApplyEdits(NewForm(), [SetName(name), SetPriceSell(priceSell)]), newId, now)
      == Some(Product(newId, name, DefaultSku(now), Aksesoris, 0, Pcs, 0, priceSell, Some(""), 5))
  {
    var edits := [SetName(name), SetPriceSell(priceSell)];
    var named := NewForm().(name := name);
    assert edits[1..] == [SetPriceSell(priceSell)];
    assert edits[1..][1..] == [];
    assert ApplyEdits(named, [SetPriceSell(priceSell)]) == ApplyEdits(named.(priceSell := priceSell), []);
    assert ApplyEdits(NewForm(), edits) == ApplyEdits(named, [SetPriceSell(priceSell)]);
  }

  /** Every product the form can add carries the alert threshold 5. */
  lemma FormProductsAlertAtFive(edits: seq<FormEdit>, newId: string, now: nat)
    ensures BuildProduct(ApplyEdits(NewForm(), edits), newId, now).Some? ==>
      BuildProduct(ApplyEdits(NewForm(), edits), newId, now).value.minStockAlert == 5
  {
    EditsKeepAlertThreshold(NewForm(), edits);
  }

  /** A product matches the search when its lowercased name or SKU contains
      the lowercased search term. */
  function Matches(term: string): Product -> bool {
    (p: Product) =>
      Text.Contains(Text.Lower(p.name), Text.Lower(term)) || Text.Contains(Text.Lower(p.sku), Text.Lower(term))
  }

  /** `filteredProducts`: the matching products, in catalog order. */
  function Search(catalog: seq<Product>, term: string): (r: seq<Product>)
    ensures IsSubsequence(r, catalog)
    ensures forall i :: 0 <= i < |catalog| ==>
      (catalog[i] in r <==>
        Text.Contains(Text.Lower(catalog[i].name), Text.Lower(term))
        || Text.Contains(Text.Lower(catalog[i].sku), Text.Lower(term)))
    ensures forall p ::
      multiset(r)[p] == (if Text.Contains(Text.Lower(p.name), Text.Lower(term)) || Text.Contains(Text.Lower(p.sku), Text.Lower(term))
         then multiset(catalog)[p] else 0)
  {
    FilterIsSubsequence(catalog, Matches(term));
    Filter(catalog, Matches(term))
  }

  /** An empty search box lists the whole catalog. */
  lemma SearchEmptyKeepsAll(catalog: seq<Product>)
    ensures Search(catalog, "") == catalog
  {
    FilterKeepsAll(catalog, Matches(""));
  }

  /** The search ignores the case of the term. */
  lemma SearchIgnoresCase(catalog: seq<Product>, term: string)
    ensures Search(catalog, term) == Search(catalog, Text.Lower(term))
  {
    Text.LowerIdempotent(term);
    FilterCongruent(catalog, Matches(term), Matches(Text.Lower(term)));
  }
}

=== FILE: pos.dfy ===
/** The point-of-sale screen's cart (components/POS.tsx): adding, removing and
    re-counting lines, the running total, the checkout guard, and the product
    grid's search. The `window.confirm` answer is a parameter. */
module Pos {
  import opened Wrappers
  import opened Seqs
  import opened Types
  import Text

  /** The cart already holds a line for `id` (`prev.find(...)` is truthy). */
  predicate InCart(cart: seq<CartItem>, id: string) {
    Find(cart, LineIs(id)).Some?
  }

  /** Clicking a product: bump every line for it by one, or append a new line
      holding a copy of the product with quantity 1. */
  function AddToCart(cart: seq<CartItem>, product: Product): (r: seq<CartItem>)
    ensures InCart(cart, product.id) ==>
      && |r| == |cart|
      && forall i :: 0 <= i < |cart| ==>
           && r[i].product == cart[i].product
           && r[i].quantity == cart[i].quantity + (if cart[i].product.id == product.id then 1 else 0)
    ensures !InCart(cart, product.id) ==>
      && |r| == |cart| + 1
      && r[..|cart|] == cart
      && r[|cart|] == CartItem(product, 1)
  {
    if InCart(cart, product.id) then
      seq(|cart|, i requires 0 <= i < |cart| =>
        if cart[i].product.id == product.id then cart[i].(quantity := cart[i].quantity + 1) else cart[i])
    else
      cart + [CartItem(product, 1)]
  }

  /** Adding keeps at most one line per product id. */
  lemma AddToCartKeepsLinesUnique(cart: seq<CartItem>, product: Product)
    requires UniqueLines(cart)
    ensures UniqueLines(AddToCart(cart, product))
  {
    var r := AddToCart(cart, product);
    if !InCart(cart, product.id) {
      assert forall i :: 0 <= i < |cart| ==> r[i] == cart[i];
    }
  }

  /** `n` consecutive clicks on the same product. */
  function AddTimes(cart: seq<CartItem>, product: Product, n: nat): seq<CartItem> {
    if n == 0 then cart else AddToCart(AddTimes(cart, product, n - 1), product)
  }

  /** A click on the product of the cart's only line for it bumps that line. */
  lemma AddToLastLine(cart: seq<CartItem>, product: Product, q: int)
    requires !InCart(cart, product.id)
    ensures AddToCart(cart + [CartItem(product, q)], product) == cart + [CartItem(product, q + 1)]
  {
    var prev := cart + [CartItem(product, q)];
    assert LineIs(product.id)(prev[|cart|]);
    var r := AddToCart(prev, product);
    assert forall i :: 0 <= i < |cart| ==> !LineIs(product.id)(cart[i]);
    assert forall i :: 0 <= i < |cart| ==> r[i] == cart[i];
  }

  /** Clicking a product that is not yet in the cart `n >= 1` times appends a
      single line for it whose quantity is `n`; the rest of the cart is kept. */
  lemma {:induction false} AddTimesMakesOneLine(cart: seq<CartItem>, product: Product, n: nat)
    requires !InCart(cart, product.id)
    requires n >= 1
    ensures AddTimes(cart, product, n) == cart + [CartItem(product, n)]
  {
    if n > 1 {
      AddTimesMakesOneLine(cart, product, n - 1);
      AddToLastLine(cart, product, n - 1);
    }
  }

  /** Starting from an empty cart, `n >= 1` clicks on a product give exactly
      one line, for that product, with quantity `n`. */
  lemma AddTimesFromEmpty(product: Product, n: nat)
    requires n >= 1
    ensures AddTimes([], product, n) == [CartItem(product, n)]
    ensures UniqueLines(AddTimes([], product, n))
  {
    AddTimesMakesOneLine([], product, n);
  }

  /** The number of units of `id` held by a line. */
  function LineQuantity(id: string): CartItem -> int {
    (l: CartItem) => if l.product.id == id then l.quantity else 0
  }

  /** The number of units of `id` in the cart, over all its lines. */
  function QuantityOf(cart: seq<CartItem>, id: string): int {
    Sum(cart, LineQuantity(id))
  }

  /** One unit for each line of product `id`. */
  function LineHit(id: string): CartItem -> int {
    (l: CartItem) => if l.product.id == id then 1 else 0
  }

  /** With one line per product, a click adds exactly one unit of the clicked
      product and no unit of any other. */
  lemma AddToCartAddsOneUnit(cart: seq<CartItem>, product: Product, id: string)
    requires UniqueLines(cart)
    ensures QuantityOf(AddToCart(cart, product), id) == QuantityOf(cart, id) + (if id == product.id then 1 else 0)
  {
    var r := AddToCart(cart, product);
    if InCart(cart, product.id) {
      if id == product.id {
        var k :| IsFirst(cart, LineIs(id), k);
        SumPointwise(r, LineQuantity(id), cart, LineQuantity(id), cart, LineHit(id));
        SumSingleHit(cart, LineHit(id), k);
      } else {
        var zero := (l: CartItem) => 0;
        SumPointwise(r, LineQuantity(id), cart, LineQuantity(id), cart, zero);
        SumZero(cart, zero);
      }
    } else {
      SumAppend(cart, [CartItem(product, 1)], LineQuantity(id));
    }
  }

  /** The amount a line adds to the total: `priceSell * quantity`. */
  function LineTotal(l: CartItem): int {
    l.product.priceSell * l.quantity
  }

  /** The cart total shown beside the pay button. */
  function Total(cart: seq<CartItem>): (r: int)
    ensures r == Reduce(cart, LineTotal, 0)
  {
    SumIsReduce(cart, LineTotal, 0);
    Sum(cart, LineTotal)
  }

  /** The unit price a click on `product` adds to the total: the price copied
      into the cart when its line was created, or the product's price when it
      gets a new line. */
  function ClickPrice(cart: seq<CartItem>, product: Product): int {
    match Find(cart, LineIs(product.id))
    case Some(l) => l.product.priceSell
    case None => product.priceSell
  }

  /** The price a line for `id` adds per unit. */
  function LinePrice(id: string): CartItem -> int {
    (l: CartItem) => if l.product.id == id then l.product.priceSell else 0
  }

  /** With one line per product, a click raises the total by one unit price:
      the line's stored price, not the catalog's current one. */
  lemma AddToCartRaisesTotal(cart: seq<CartItem>, product: Product)
    requires UniqueLines(cart)
    ensures Total(AddToCart(cart, product)) == Total(cart) + ClickPrice(cart, product)
  {
    var r := AddToCart(cart, product);
    if InCart(cart, product.id) {
      var k :| IsFirst(cart, LineIs(product.id), k);
      SumPointwise(r, LineTotal, cart, LineTotal, cart, LinePrice(product.id));
      SumSingleHit(cart, LinePrice(product.id), k);
    } else {
      SumAppend(cart, [CartItem(product, 1)], LineTotal);
    }
  }

  /** The empty cart totals 0, and with non-negative prices and quantities
      the total is never negative. */
  lemma TotalBounds(cart: seq<CartItem>)
    ensures |cart| == 0 ==> Total(cart) == 0
    ensures (forall i :: 0 <= i < |cart| ==> cart[i].product.priceSell >= 0 && cart[i].quantity >= 0)
            ==> Total(cart) >= 0
  {
    if forall i :: 0 <= i < |cart| ==> cart[i].product.priceSell >= 0 && cart[i].quantity >= 0 {
      forall i | 0 <= i < |cart|
        ensures LineTotal(cart[i]) >= 0
      {
        var l := cart[i];
        assert l.product.priceSell >= 0 && l.quantity >= 0;
      }
    }
  }

  /** The filter predicate `item => item.id !== id`. */
  function LineIsNot(id: string): CartItem -> bool {
    (l: CartItem) => l.product.id != id
  }

  /** The bin button: drop every line for `id`, keeping the others in order. */
  function RemoveFromCart(cart: seq<CartItem>, id: string): (r: seq<CartItem>)
    ensures IsSubsequence(r, cart)
    ensures forall i :: 0 <= i < |r| ==> r[i].product.id != id
    ensures forall i :: 0 <= i < |cart| && cart[i].product.id != id ==> cart[i] in r
    ensures forall l :: multiset(r)[l] == if l.product.id != id then multiset(cart)[l] else 0
    ensures !InCart(cart, id) ==> r == cart
  {
    FilterIsSubsequence(cart, LineIsNot(id));
    var r := Filter(cart, LineIsNot(id));
    assert !InCart(cart, id) ==> r == cart by {
      if !InCart(cart, id) {
        FilterKeepsAll(cart, LineIsNot(id));
      }
    }
    r
  }

  /** The bin button keeps at most one line per product id. */
  lemma {:induction false} RemoveKeepsLinesUnique(cart: seq<CartItem>, id: string)
    requires UniqueLines(cart)
    ensures UniqueLines(RemoveFromCart(cart, id))
  {
    FilterKeepsLinesUnique(cart, LineIsNot(id));
  }

  /** Filtering a cart with one line per id keeps one line per id. */
  lemma {:induction false} FilterKeepsLinesUnique(cart: seq<CartItem>, keep: CartItem -> bool)
    requires UniqueLines(cart)
    ensures UniqueLines(Filter(cart, keep))
  {
    if |cart| > 0 {
      var rest := cart[1..];
      assert UniqueLines(rest) by {
        assert forall i :: 0 <= i < |rest| ==> rest[i] == cart[i + 1];
      }
      FilterKeepsLinesUnique(rest, keep);
      if keep(cart[0]) {
        var t := Filter(rest, keep);
        forall j | 0 <= j < |t|
          ensures t[j].product.id != cart[0].product.id
        {
          assert t[j] in rest;
          var m :| 0 <= m < |rest| && rest[m] == t[j];
          assert rest[m] == cart[m + 1];
        }
        UniqueLinesCons(cart[0], t);
      }
    }
  }

  /** A line put in front of a cart with one line per id, for an id not
      already there, keeps one line per id. */
  lemma UniqueLinesCons(l: CartItem, t: seq<CartItem>)
    requires UniqueLines(t)
    requires forall j :: 0 <= j < |t| ==> t[j].product.id != l.product.id
    ensures UniqueLines([l] + t)
  {
    var r := [l] + t;
    assert forall j :: 1 <= j < |r| ==> r[j] == t[j - 1];
  }

  /** Removing `id` leaves no unit of it and every other product's count as it was. */
  lemma RemoveFromCartQuantities(cart: seq<CartItem>, id: string, other: string)
    ensures QuantityOf(RemoveFromCart(cart, id), id) == 0
    ensures other != id ==> QuantityOf(RemoveFromCart(cart, id), other) == QuantityOf(cart, other)
  {
    var r := RemoveFromCart(cart, id);
    SumZero(r, LineQuantity(id));
    if other != id {
      SumFilter(cart, LineIsNot(id), LineQuantity(other), LineQuantity(other));
    }
  }

  /** `Math.max(1, quantity + delta)`. */
  function ClampedQuantity(quantity: int, delta: int): (q: int)
    ensures q >= 1 && q >= quantity + delta
    ensures q == 1 || q == quantity + delta
  {
    if quantity + delta > 1 then quantity + delta else 1
  }

  /** The soft stock check: `q` units pass unless the first catalog product
      with that id has less stock. An unknown id always passes. */
  ghost predicate WithinStock(catalog: seq<Product>, id: string, q: int) {
    forall k :: IsFirst(catalog, ProductIs(id), k) ==> q <= catalog[k].stock
  }

  /** The new state of one line after pressing plus or minus on `id`. */
  function AdjustLine(line: CartItem, catalog: seq<Product>, id: string, delta: int): CartItem {
    if line.product.id != id then line
    else
      var q := ClampedQuantity(line.quantity, delta);
      match Find(catalog, ProductIs(id))
      case Some(p) => if q > p.stock then line else line.(quantity := q)
      case None => line.(quantity := q)
  }

  /** The plus/minus buttons: lines for `id` move to `max(1, quantity + delta)`
      unless that exceeds the catalog stock, in which case they stay as they
      are; no line is ever removed and other lines are untouched. */
  function UpdateQuantity(cart: seq<CartItem>, catalog: seq<Product>, id: string, delta: int): (r: seq<CartItem>)
    ensures |r| == |cart|
    ensures forall i :: 0 <= i < |cart| ==> r[i].product == cart[i].product
    ensures forall i :: 0 <= i < |cart| && cart[i].product.id != id ==> r[i] == cart[i]
    ensures forall i :: 0 <= i < |cart| && cart[i].product.id == id ==>
      r[i].quantity ==
        (if WithinStock(catalog, id, ClampedQuantity(cart[i].quantity, delta))
         then ClampedQuantity(cart[i].quantity, delta) else cart[i].quantity)
  {
    seq(|cart|, i requires 0 <= i < |cart| => AdjustLine(cart[i], catalog, id, delta))
  }

  /** Pressing minus on lines already at quantity 1 changes nothing: the
      quantity is clamped at 1 and the line is not removed. */
  lemma MinusAtOneIsNoOp(cart: seq<CartItem>, catalog: seq<Product>, id: string)
    requires forall i :: 0 <= i < |cart| && cart[i].product.id == id ==> cart[i].quantity == 1
    ensures UpdateQuantity(cart, catalog, id, -1) == cart
  {
    var r := UpdateQuantity(cart, catalog, id, -1);
    forall i | 0 <= i < |cart|
      ensures r[i] == cart[i]
    {
      if cart[i].product.id == id {
        assert r[i].quantity == cart[i].quantity;
      }
    }
  }

  /** What the pay button submits to the shop: the lines and their total. */
  datatype Sale = Sale(items: seq<CartItem>, total: int)

  /** The cart left on screen and the sale submitted, if any. */
  datatype CheckoutOutcome = CheckoutOutcome(cart: seq<CartItem>, sale: Option<Sale>)

  /** The pay button. An empty cart, or a declined confirmation, does nothing;
      otherwise the cart and its total are submitted and the cart is emptied. */
  function HandleCheckout(cart: seq<CartItem>, confirmed: bool): (r: CheckoutOutcome)
    ensures r.sale.Some? <==> |cart| > 0 && confirmed
    ensures r.sale.Some? ==> r.sale.value == Sale(cart, Total(cart)) && r.cart == []
    ensures r.sale.None? ==> r.cart == cart
  {
    if |cart| == 0 then CheckoutOutcome(cart, None)
    else if confirmed then CheckoutOutcome([], Some(Sale(cart, Total(cart))))
    else CheckoutOutcome(cart, None)
  }

  /** A product tile is shown when its lowercased name contains the lowercased
      search term and it is in stock. */
  function ShownOnGrid(term: string): Product -> bool {
    (p: Product) => Text.Contains(Text.Lower(p.name), Text.Lower(term)) && p.stock > 0
  }

  /** The product grid beside the cart: in-stock products matching by name. */
  function Browse(catalog: seq<Product>, term: string): (r: seq<Product>)
    ensures IsSubsequence(r, catalog)
    ensures forall i :: 0 <= i < |r| ==> r[i].stock > 0
    ensures forall i :: 0 <= i < |catalog| ==>
      (catalog[i] in r <==> Text.Contains(Text.Lower(catalog[i].name), Text.Lower(term)) && catalog[i].stock > 0)
    ensures forall p ::
      multiset(r)[p] == (if Text.Contains(Text.Lower(p.name), Text.Lower(term)) && p.stock > 0 then multiset(catalog)[p] else 0)
  {
    FilterIsSubsequence(catalog, ShownOnGrid(term));
    Filter(catalog, ShownOnGrid(term))
  }
}

=== FILE: seqs.dfy ===
/** The three array combinators the shop's handlers are written with:
    `find` (first match), `filter` (order-preserving selection) and a
    numeric `reduce` (sum), each with the facts the handlers rely on. */
module Seqs {
  import opened Wrappers

  /** `k` is the index of the first element of `s` satisfying `p`. */
  predicate IsFirst<T>(s: seq<T>, p: T -> bool, k: int) {
    && 0 <= k < |s|
    && p(s[k])
    && forall j :: 0 <= j < k ==> !p(s[j])
  }

  /** `Array.prototype.find`: the first element satisfying `p`, if any. */
  function Find<T>(s: seq<T>, p: T -> bool): (r: Option<T>)
    ensures r.None? <==> forall i :: 0 <= i < |s| ==> !p(s[i])
    ensures r.Some? ==> exists k :: IsFirst(s, p, k) && s[k] == r.value
    ensures forall k :: IsFirst(s, p, k) ==> r == Some(s[k])
  {
    if |s| == 0 then None
    else if p(s[0]) then Some(s[0])
    else
      var r := Find(s[1..], p);
      assert forall k :: IsFirst(s, p, k) ==> IsFirst(s[1..], p, k - 1);
      assert forall k :: IsFirst(s[1..], p, k) ==> IsFirst(s, p, k + 1);
      r
  }

  /** `Array.prototype.filter`: the elements of `s` satisfying `keep`, in order. */
  function Filter<T(==,!new)>(s: seq<T>, keep: T -> bool): (r: seq<T>)
    ensures |r| <= |s|
    ensures forall i :: 0 <= i < |r| ==> keep(r[i]) && r[i] in s
    ensures forall i :: 0 <= i < |s| && keep(s[i]) ==> s[i] in r
    ensures forall x :: multiset(r)[x] == if keep(x) then multiset(s)[x] else 0
  {
    if |s| == 0 then []
    else
      assert s == [s[0]] + s[1..];
      if keep(s[0]) then [s[0]] + Filter(s[1..], keep)
      else Filter(s[1..], keep)
  }

  /** `r` can be obtained from `s` by deleting elements (order is kept). */
  predicate IsSubsequence<T(==)>(r: seq<T>, s: seq<T>)
    decreases |s|
  {
    if |r| == 0 then true
    else if |s| == 0 then false
    else (r[0] == s[0] && IsSubsequence(r[1..], s[1..])) || IsSubsequence(r, s[1..])
  }

  /** Filtering never reorders: the result is a subsequence of the input. */
  lemma {:induction false} FilterIsSubsequence<T(!new)>(s: seq<T>, keep: T -> bool)
    ensures IsSubsequence(Filter(s, keep), s)
  {
    if |s| > 0 {
      FilterIsSubsequence(s[1..], keep);
      if keep(s[0]) {
        assert Filter(s, keep)[1..] == Filter(s[1..], keep);
      }
    }
  }

  /** Filtering a concatenation filters each part. */
  lemma {:induction false} FilterAppend<T(!new)>(a: seq<T>, b: seq<T>, keep: T -> bool)
    ensures Filter(a + b, keep) == Filter(a, keep) + Filter(b, keep)
  {
    if |a| > 0 {
      assert (a + b)[1..] == a[1..] + b;
      FilterAppend(a[1..], b, keep);
    } else {
      assert a + b == b;
    }
  }

  /** When every element is kept, filtering is the identity. */
  lemma {:induction false} FilterKeepsAll<T(!new)>(s: seq<T>, keep: T -> bool)
    requires forall i :: 0 <= i < |s| ==> keep(s[i])
    ensures Filter(s, keep) == s
  {
    if |s| > 0 {
      FilterKeepsAll(s[1..], keep);
      assert [s[0]] + s[1..] == s;
    }
  }

  /** Filtering with two predicates that agree on every element gives the
      same result. */
  lemma {:induction false} FilterCongruent<T(!new)>(s: seq<T>, keep: T -> bool, keep': T -> bool)
    requires forall i :: 0 <= i < |s| ==> keep(s[i]) == keep'(s[i])
    ensures Filter(s, keep) == Filter(s, keep')
  {
    if |s| > 0 {
      FilterCongruent(s[1..], keep, keep');
    }
  }

  /** The sum of `f` over `s` (a numeric `Array.prototype.reduce` from 0). */
  function Sum<T>(s: seq<T>, f: T -> int): (r: int)
    ensures (forall i :: 0 <= i < |s| ==> f(s[i]) >= 0) ==> r >= 0
  {
    if |s| == 0 then 0 else f(s[0]) + Sum(s[1..], f)
  }

  /** `s.reduce((acc, x) => acc + f(x), acc)` as JavaScript evaluates it:
      left to right, from the accumulator. */
  function Reduce<T>(s: seq<T>, f: T -> int, acc: int): int {
    if |s| == 0 then acc else Reduce(s[1..], f, acc + f(s[0]))
  }

  /** The left-to-right `reduce` from `acc` is `acc` plus the sum: `Sum` can
      stand for every `reduce` over a sum. */
  lemma {:induction false} SumIsReduce<T>(s: seq<T>, f: T -> int, acc: int)
    ensures Reduce(s, f, acc) == acc + Sum(s, f)
  {
    if |s| > 0 {
      SumIsReduce(s[1..], f, acc + f(s[0]));
    }
  }

  /** Summing a concatenation sums each part. */
  lemma {:induction false} SumAppend<T>(a: seq<T>, b: seq<T>, f: T -> int)
    ensures Sum(a + b, f) == Sum(a, f) + Sum(b, f)
  {
    if |a| > 0 {
      assert (a + b)[1..] == a[1..] + b;
      SumAppend(a[1..], b, f);
    } else {
      assert a + b == b;
    }
  }

  /** Sequences of equal length whose terms agree pointwise as
      `f(a[i]) == g(b[i]) + h(c[i])` have sums that agree the same way. */
  lemma {:induction false} SumPointwise<T, U, V>(a: seq<T>, f: T -> int, b: seq<U>, g: U -> int, c: seq<V>, h: V -> int)
    requires |a| == |b| == |c|
    requires forall i :: 0 <= i < |a| ==> f(a[i]) == g(b[i]) + h(c[i])
    ensures Sum(a, f) == Sum(b, g) + Sum(c, h)
  {
    if |a| > 0 {
      SumPointwise(a[1..], f, b[1..], g, c[1..], h);
    }
  }

  /** A sum whose terms are all zero is zero. */
  lemma {:induction false} SumZero<T>(s: seq<T>, f: T -> int)
    requires forall i :: 0 <= i < |s| ==> f(s[i]) == 0
    ensures Sum(s, f) == 0
  {
    if |s| > 0 {
      SumZero(s[1..], f);
    }
  }

  /** A sum in which only the term at `k` can be non-zero equals that term. */
  lemma {:induction false} SumSingleHit<T>(s: seq<T>, f: T -> int, k: int)
    requires 0 <= k < |s|
    requires forall i :: 0 <= i < |s| && i != k ==> f(s[i]) == 0
    ensures Sum(s, f) == f(s[k])
  {
    if k == 0 {
      SumZero(s[1..], f);
    } else {
      SumSingleHit(s[1..], f, k - 1);
    }
  }

  /** Summing over a filtered sequence is summing over the whole sequence with
      the dropped elements counted as zero (`g` is `f` on kept elements). */
  lemma {:induction false} SumFilter<T(!new)>(s: seq<T>, keep: T -> bool, f: T -> int, g: T -> int)
    requires forall i :: 0 <= i < |s| ==> g(s[i]) == (if keep(s[i]) then f(s[i]) else 0)
    ensures Sum(Filter(s, keep), f) == Sum(s, g)
  {
    if |s| > 0 {
      SumFilter(s[1..], keep, f, g);
    }
  }
}

=== FILE: shop.dfy ===
/** The whole shop as one state: the catalog and ledger held by the
    application shell and the cart held by the point-of-sale screen, with one
    transition per user action. Everything the source reads from the outside
    world (the confirmation answer, the clock, today's date, a random id) is
    an argument. */
module Shop {
  import opened Wrappers
  import opened Seqs
  import opened Types
  import Pos
  import App
  import Dashboard
  import Inventory

  datatype State = State(catalog: seq<Product>, cart: seq<CartItem>, ledger: seq<Transaction>)

  /** A click on a product tile. */
  function Click(s: State, product: Product): State {
    s.(cart := Pos.AddToCart(s.cart, product))
  }

  /** The plus or minus button of a cart line, checked against the catalog. */
  function Adjust(s: State, id: string, delta: int): State {
    s.(cart := Pos.UpdateQuantity(s.cart, s.catalog, id, delta))
  }

  /** The bin button of a cart line. */
  function Remove(s: State, id: string): State {
    s.(cart := Pos.RemoveFromCart(s.cart, id))
  }

  /** Saving the add-product form. */
  function SaveForm(s: State, form: Inventory.ProductForm, newId: string, now: nat): State {
    s.(catalog := Inventory.HandleSubmit(s.catalog, form, newId, now))
  }

  /** The pay button followed, when a sale is submitted, by the shell's
      transaction handler. */
  function Checkout(s: State, confirmed: bool, now: nat, today: string): (r: State)
    ensures |s.cart| == 0 || !confirmed ==> r == s
    ensures |s.cart| > 0 && confirmed ==>
      && |r.ledger| == |s.ledger| + 1
      && r.ledger[..|s.ledger|] == s.ledger
      && r.ledger[|s.ledger|] == Transaction(App.TransactionId(now), today, Pos.Total(s.cart), s.cart)
      && r.cart == []
      && |r.catalog| == |s.catalog|
      && (forall i :: 0 <= i < |s.catalog| ==> r.catalog[i].(stock := s.catalog[i].stock) == s.catalog[i])
      && (forall i, k :: 0 <= i < |s.catalog| && IsFirst(s.cart, LineIs(s.catalog[i].id), k) ==>
            r.catalog[i].stock == s.catalog[i].stock - s.cart[k].quantity)
      && (forall i :: 0 <= i < |s.catalog| && !Pos.InCart(s.cart, s.catalog[i].id) ==> r.catalog[i] == s.catalog[i])
  {
    var out := Pos.HandleCheckout(s.cart, confirmed);
    match out.sale
    case None => s.(cart := out.cart)
    case Some(sale) =>
      var books := App.CompleteTransaction(App.Books(s.catalog, s.ledger), sale.items, sale.total, now, today);
      State(books.products, out.cart, books.transactions)
  }

  /** A completed checkout raises total sales by the cart's total; an ignored
      one leaves it as it was. */
  lemma CheckoutRaisesSales(s: State, confirmed: bool, now: nat, today: string)
    ensures Dashboard.TotalSales(Checkout(s, confirmed, now, today).ledger)
      == Dashboard.TotalSales(s.ledger) + (if |s.cart| > 0 && confirmed then Pos.Total(s.cart) else 0)
  {
    var r := Checkout(s, confirmed, now, today);
    if |s.cart| > 0 && confirmed {
      assert r.ledger == s.ledger + [r.ledger[|s.ledger|]];
      Dashboard.TotalSalesAppend(s.ledger, r.ledger[|s.ledger|]);
    }
  }

  /** With distinct catalog ids, one cart line per product and every line
      naming a catalog product, a completed checkout takes exactly the units
      in the cart off the shelves. */
  lemma CheckoutConservesStock(s: State, confirmed: bool, now: nat, today: string)
    requires UniqueProducts(s.catalog)
    requires UniqueLines(s.cart)
    requires forall k :: 0 <= k < |s.cart| ==> App.InCatalog(s.catalog, s.cart[k].product.id)
    ensures App.StockOnHand(Checkout(s, confirmed, now, today).catalog)
      == App.StockOnHand(s.catalog) - (if |s.cart| > 0 && confirmed then App.UnitsSold(s.cart) else 0)
  {
    if |s.cart| > 0 && confirmed {
      App.ReduceStockConservesUnits(s.catalog, s.cart);
    }
  }

  /** What the screens keep true of the state: one cart line per product, and
      every line for a product in the catalog. */
  predicate Consistent(s: State) {
    && UniqueLines(s.cart)
    && forall k :: 0 <= k < |s.cart| ==> App.InCatalog(s.catalog, s.cart[k].product.id)
  }

  /** A click on a catalog tile keeps the state consistent. */
  lemma ClickKeepsConsistent(s: State, product: Product)
    requires Consistent(s)
    requires product in s.catalog
    ensures Consistent(Click(s, product))
  {
    Pos.AddToCartKeepsLinesUnique(s.cart, product);
    var r := Click(s, product).cart;
    forall k | 0 <= k < |r|
      ensures App.InCatalog(s.catalog, r[k].product.id)
    {
      if k < |s.cart| {
        assert r[k].product == s.cart[k].product;
      } else {
        var j :| 0 <= j < |s.catalog| && s.catalog[j] == product;
        assert s.catalog[j].id == r[k].product.id;
      }
    }
  }

  /** The plus/minus buttons keep the state consistent. */
  lemma AdjustKeepsConsistent(s: State, id: string, delta: int)
    requires Consistent(s)
    ensures Consistent(Adjust(s, id, delta))
  {
    var r := Adjust(s, id, delta).cart;
    assert forall k :: 0 <= k < |r| ==> r[k].product.id == s.cart[k].product.id;
  }

  /** The bin button keeps the state consistent. */
  lemma RemoveKeepsConsistent(s: State, id: string)
    requires Consistent(s)
    ensures Consistent(Remove(s, id))
  {
    var r := Remove(s, id).cart;
    forall k | 0 <= k < |r|
      ensures App.InCatalog(s.catalog, r[k].product.id)
    {
      assert multiset(r)[r[k]] > 0;
      assert r[k] in s.cart;
    }
    Pos.RemoveKeepsLinesUnique(s.cart, id);
  }

  /** Saving the form keeps the state consistent: the catalog only grows. */
  lemma SaveFormKeepsConsistent(s: State, form: Inventory.ProductForm, newId: string, now: nat)
    requires Consistent(s)
    ensures Consistent(SaveForm(s, form, newId, now))
  {
    var c := SaveForm(s, form, newId, now).catalog;
    forall k | 0 <= k < |s.cart|
      ensures App.InCatalog(c, s.cart[k].product.id)
    {
      var j :| 0 <= j < |s.catalog| && s.catalog[j].id == s.cart[k].product.id;
      assert c[j] == s.catalog[j];
    }
  }

  /** A checkout keeps the state consistent: it empties the cart or changes
      nothing, and never touches an id. */
  lemma CheckoutKeepsConsistent(s: State, confirmed: bool, now: nat, today: string)
    requires Consistent(s)
    ensures Consistent(Checkout(s, confirmed, now, today))
  {
  }

  /** The first product of the shop's seed catalog: a reel with 5 in stock,
      bought at 8,500,000 and sold at 10,500,000, flagged at 2 or fewer. */
  const Stella := Product("1", "Shimano Stella SW 4000", "SHM-STL-4000", Reel, 5, Pcs, 8500000, 10500000, None, 2)

  /** Three clicks on a product from an empty cart give one line of 3. */
  lemma ThreeClicks(s: State, product: Product)
    requires s.cart == []
    ensures Click(Click(Click(s, product), product), product).cart == [CartItem(product, 3)]
  {
    Pos.AddTimesFromEmpty(product, 3);
    assert Click(Click(Click(s, product), product), product).cart == Pos.AddTimes([], product, 3);
  }

  /** Checking out a cart of 3 reels from a catalog holding only the reel. */
  lemma CheckoutThreeReels(reel: Product, now: nat, today: string)
    ensures Checkout(State([reel], [CartItem(reel, 3)], []), true, now, today)
      == State([reel.(stock := reel.stock - 3)], [],
               [Transaction(App.TransactionId(now), today, 3 * reel.priceSell, [CartItem(reel, 3)])])
  {
    var cart := [CartItem(reel, 3)];
    assert IsFirst(cart, LineIs(reel.id), 0);
    assert Pos.Total(cart) == Pos.LineTotal(cart[0]) + Sum(cart[1..], Pos.LineTotal);
  }

  /** Three clicks on the reel and a confirmed checkout record one sale of
      31,500,000 and leave 2 reels, which puts the reel on the low-stock list. */
  lemma SeedScenario(now: nat, today: string)
    ensures
      var s1 := Checkout(Click(Click(Click(State([Stella], [], []), Stella), Stella), Stella), true, now, today);
      && |s1.ledger| == 1
      && s1.ledger[0].total == 31500000
      && s1.ledger[0].items == [CartItem(Stella, 3)]
      && s1.cart == []
      && s1.catalog == [Stella.(stock := 2)]
      && Dashboard.LowStock(s1.catalog) == s1.catalog
      && Dashboard.TotalSales(s1.ledger) == 31500000
  {
    var s0 := State([Stella], [], []);
    ThreeClicks(s0, Stella);
    assert Click(Click(Click(s0, Stella), Stella), Stella) == State([Stella], [CartItem(Stella, 3)], []);
    CheckoutThreeReels(Stella, now, today);
    var s1 := Checkout(State([Stella], [CartItem(Stella, 3)], []), true, now, today);
    FilterKeepsAll(s1.catalog, Dashboard.IsLowStock);
    assert Dashboard.TotalSales(s1.ledger) == Dashboard.TransactionTotal(s1.ledger[0]) + Sum(s1.ledger[1..], Dashboard.TransactionTotal);
  }

  /** Selling past the shelf: tiles carry no stock check, so with 2 reels
      left three clicks and a confirmed checkout still succeed, and leave a
      stock of -1. */
  lemma OversellScenario(now: nat, today: string)
    ensures
      var reel := Stella.(stock := 2);
      var s1 := Checkout(Click(Click(Click(State([reel], [], []), reel), reel), reel), true, now, today);
      && |s1.ledger| == 1
      && s1.catalog == [Stella.(stock := -1)]
  {
    var reel := Stella.(stock := 2);
    var s0 := State([reel], [], []);
    ThreeClicks(s0, reel);
    assert Click(Click(Click(s0, reel), reel), reel) == State([reel], [CartItem(reel, 3)], []);
    CheckoutThreeReels(reel, now, today);
  }
}

=== FILE: text.dfy ===
/** The string operations the search boxes and the SKU default use:
    `toLowerCase`, `includes`, and the decimal rendering of a number inside a
    template literal. */
module Text {

  predicate IsUpper(c: char) {
    'A' <= c <= 'Z'
  }

  /** `toLowerCase` on one character, restricted to ASCII letters. */
  function LowerChar(c: char): (d: char)
    ensures !IsUpper(d)
    ensures !IsUpper(c) ==> d == c
    ensures IsUpper(c) ==> 'a' <= d <= 'z' && d as int - c as int == 'a' as int - 'A' as int
  {
    if IsUpper(c) then (c as int - 'A' as int + 'a' as int) as char else c
  }

  /** `String.prototype.toLowerCase`, restricted to ASCII letters. */
  function Lower(s: string): (r: string)
    ensures |r| == |s|
    ensures forall i :: 0 <= i < |r| ==> !IsUpper(r[i])
    ensures forall i :: 0 <= i < |s| && !IsUpper(s[i]) ==> r[i] == s[i]
    ensures forall i :: 0 <= i < |s| && IsUpper(s[i]) ==> r[i] as int == s[i] as int + ('a' as int - 'A' as int)
  {
    seq(|s|, i requires 0 <= i < |s| => LowerChar(s[i]))
  }

  /** Lowercasing twice is lowercasing once. */
  lemma LowerIdempotent(s: string)
    ensures Lower(Lower(s)) == Lower(s)
  {
  }

  /** `needle` occurs in `hay` starting at index `i`. */
  predicate OccursAt(hay: string, needle: string, i: int) {
    0 <= i && i + |needle| <= |hay| && hay[i..i + |needle|] == needle
  }

  /** `String.prototype.includes`: `needle` is a substring of `hay`. */
  function Contains(hay: string, needle: string): (b: bool)
    ensures |needle| == 0 ==> b
    ensures |needle| > |hay| ==> !b
  {
    if |needle| <= |hay| && hay[..|needle|] == needle then true
    else if |hay| == 0 then false
    else Contains(hay[1..], needle)
  }

  /** `Contains` holds exactly when the needle occurs at some index. */
  lemma {:induction false} ContainsIffOccurs(hay: string, needle: string)
    ensures Contains(hay, needle) <==> exists i :: OccursAt(hay, needle, i)
  {
    if |needle| <= |hay| && hay[..|needle|] == needle {
      assert OccursAt(hay, needle, 0);
    } else if |hay| == 0 {
      assert !exists i :: OccursAt(hay, needle, i);
    } else {
      ContainsIffOccurs(hay[1..], needle);
      if exists i :: OccursAt(hay[1..], needle, i) {
        var i :| OccursAt(hay[1..], needle, i);
        assert hay[1..][i..i + |needle|] == hay[i + 1..i + 1 + |needle|];
        assert OccursAt(hay, needle, i + 1);
      }
      if exists i :: OccursAt(hay, needle, i) {
        var i :| OccursAt(hay, needle, i);
        assert i != 0;
        assert hay[1..][i - 1..i - 1 + |needle|] == hay[i..i + |needle|];
        assert OccursAt(hay[1..], needle, i - 1);
      }
    }
  }

  /** The ASCII digit for `d`. */
  function DigitChar(d: int): (c: char)
    requires 0 <= d < 10
    ensures '0' <= c <= '9'
  {
    ('0' as int + d) as char
  }

  predicate IsDigits(s: string) {
    forall i :: 0 <= i < |s| ==> '0' <= s[i] <= '9'
  }

  /** The decimal rendering of a non-negative integer, as a template literal
      prints `Date.now()`: digits only, and no leading zero unless it is `0`. */
  function Decimal(n: nat): (s: string)
    ensures |s| >= 1 && IsDigits(s)
    ensures s[0] == '0' ==> n == 0
  {
    if n < 10 then [DigitChar(n)] else Decimal(n / 10) + [DigitChar(n % 10)]
  }

  /** The value of a string of decimal digits. */
  function DigitsValue(s: string): nat
    requires IsDigits(s)
  {
    if |s| == 0 then 0
    else DigitsValue(s[..|s| - 1]) * 10 + (s[|s| - 1] as int - '0' as int)
  }

  /** Reading back a rendered number gives the number: distinct timestamps
      render to distinct strings. */
  lemma {:induction false} DecimalRoundTrip(n: nat)
    ensures DigitsValue(Decimal(n)) == n
  {
    if n >= 10 {
      var s := Decimal(n);
      assert s[..|s| - 1] == Decimal(n / 10);
      DecimalRoundTrip(n / 10);
    }
  }
}

=== FILE: types.dfy ===
/** The shop's records: products, cart lines and completed transactions
    (types.ts). Prices, stock and quantities are JavaScript numbers in the
    source and whole numbers here. */
module Types {
  import opened Wrappers

  /** The unit a product is counted in; a display label only. */
  datatype UnitType = Pcs | Box | Pack | Set | Kg

  datatype Category = Joran | Reel | Kail | Senar | Umpan | Aksesoris

  /** The string value each unit carries in the source enum. */
  function UnitLabel(u: UnitType): string {
    match u
    case Pcs => "Pcs"
    case Box => "Box"
    case Pack => "Pack"
    case Set => "Set"
    case Kg => "Kg"
  }

  /** The string value each category carries in the source enum. */
  function CategoryLabel(c: Category): string {
    match c
    case Joran => "Joran (Rod)"
    case Reel => "Reel"
    case Kail => "Kail (Hooks)"
    case Senar => "Senar (Line)"
    case Umpan => "Umpan (Bait)"
    case Aksesoris => "Aksesoris"
  }

  /** Distinct enum members carry distinct strings. */
  lemma LabelsDistinct(u: UnitType, u': UnitType, c: Category, c': Category)
    ensures UnitLabel(u) == UnitLabel(u') ==> u == u'
    ensures CategoryLabel(c) == CategoryLabel(c') ==> c == c'
  {
  }

  /** A catalog entry. `description` is the one optional field. */
  datatype Product = Product(
    id: string,
    name: string,
    sku: string,
    category: Category,
    stock: int,
    unit: UnitType,
    priceBuy: int,
    priceSell: int,
    description: Option<string>,
    minStockAlert: int)

  /** A cart line: a copy of the product as it was when first added, plus
      the number of units being bought. */
  datatype CartItem = CartItem(product: Product, quantity: int)

  /** A completed sale. */
  datatype Transaction = Transaction(id: string, date: string, total: int, items: seq<CartItem>)

  /** The lookup predicate `p => p.id === id`. */
  function ProductIs(id: string): Product -> bool {
    (p: Product) => p.id == id
  }

  /** The lookup predicate `item => item.id === id`. */
  function LineIs(id: string): CartItem -> bool {
    (l: CartItem) => l.product.id == id
  }

  /** No two cart lines are for the same product id. */
  predicate UniqueLines(cart: seq<CartItem>) {
    forall i, j :: 0 <= i < j < |cart| ==> cart[i].product.id != cart[j].product.id
  }

  /** No two catalog entries share an id. */
  predicate UniqueProducts(catalog: seq<Product>) {
    forall i, j :: 0 <= i < j < |catalog| ==> catalog[i].id != catalog[j].id
  }
}

=== FILE: wrappers.dfy ===
/** Optional values: JavaScript's `undefined` (an absent optional field, or the
    result of `Array.prototype.find` when nothing matches). */
module Wrappers {

  datatype Option<+T> = None | Some(value: T)
}
